=== FILE: README.md ===
# unicode-cli core in Dafny

A model of the logic of `src/lib.rs` of unicode-cli, a command-line tool that
reports Unicode character metadata and searches character names. The tool's
data (names, blocks, categories, ages, binary properties) comes from the
`unicode_names2` and `unic_ucd` crates and its name search uses the `regex`
crate. The model treats all of those as opaque: a `Ucd` value bundles the
tables as uninterpreted total functions plus the block list, a pattern is a
predicate on names, and every result is proved for all tables and all
patterns. What is verified is the program's own glue:

- `parse_scalar_value` (module `ScalarParse`): a single character, else a
  base-16 `u32` that is a scalar value, else a character name. It is built on
  a model of `u32::from_str_radix(s, 16)` and `char::from_u32` (module
  `Radix`), written the way the standard library runs them and proved equal
  to the positional meaning of the digits.
- `search` (module `BlockSearch`): a nested loop over the block table and
  each block's range, keeping named characters whose name matches.
- `Info::of` (module `CharRecord`): the all-or-nothing metadata record.
- `CharInfo::display` (module `CharDisplay`): the verbosity dispatch, the
  block view's print decision, the one-line view's type letter, flag string
  and `{:6X}` code column, modelled as the text each view prints.

Dafny's `char` is a Unicode scalar value (D76 in section 3.9 of the Unicode
Standard), exactly like Rust's `char`, so strings are `seq<char>`.

Assumptions about the tables appear only where a property needs them, as
a `requires` of a lemma or as the antecedent of an `ensures` (the ordering
of `BlockSearch.Search`'s results): `BlocksAscending` (blocks in ascending order and pairwise
disjoint, as in the Unicode Character Database) and `NamesInvertible` (the
name lookup inverts the name table). `Block::of` is modelled as the lookup
of a character in the same block list `BlockIter` walks.

The record has seven boolean properties (`src/lib.rs:17-23`), and a block
is the closed range `low..=high` of `unic_ucd`'s `CharRange`.

## Model

| member | source | states |
|---|---|---|
| UnicodeData.BlockOf | src/lib.rs:32 | `Block::of` finds a block of the table that contains the character, and finds none exactly when no block contains it |
| UnicodeData.BlockOfUnique | src/lib.rs:32 | over an ascending table the containing block is unique and is the one `Block::of` returns |
| Radix.Accumulate | src/lib.rs:167 | the digit loop of `from_str_radix`: a success stays within 32 bits and never shrinks the accumulator; failures are invalid digits or overflow |
| Radix.FromStrRadix16 | src/lib.rs:167 | the parse fails with `Empty` exactly on the empty string; a success is a `u32` |
| Radix.AccumulateValue | src/lib.rs:167 | the digit loop succeeds exactly when every character is a hex digit and the positional value fits in 32 bits, and then yields that value |
| Radix.FromStrRadix16Meaning | src/lib.rs:167 | `from_str_radix(s, 16)` succeeds exactly when `s` is one or more hex digits of either case, after at most one `+`, denoting at most 2^32-1, and returns that number |
| Radix.ToDigit | src/lib.rs:167 | `char::to_digit(16)` accepts exactly 0-9, a-f and A-F; a decimal digit has its own value and a letter a-f or A-F has 10 plus its distance from `a` or `A` |
| Radix.ToDigitIgnoresCase | src/lib.rs:167 | a lower-case hex letter has the same digit value as its upper-case twin |
| Radix.FromU32 | src/lib.rs:168 | `char::from_u32` yields a character exactly for scalar values (at most 0x10FFFF, not D800-DFFF), with that code |
| Radix.FromU32RoundTrip | src/lib.rs:168 | every character's code converts back to the character |
| Radix.UpperHex | src/lib.rs:119 | `{:X}` prints one or more hexadecimal digits, none of them lower-case, with a leading zero only for zero |
| Radix.UpperHexValue | src/lib.rs:119 | the digits `{:X}` prints denote the number printed |
| Radix.UpperHexRoundTrip | src/lib.rs:119 | the upper-case hex rendering of a `u32` parses back to it, with or without a leading `+` |
| ScalarParse.ParseScalarValue | src/lib.rs:156-179 | one character wins even if it is a hex digit; else a hex reading that is a scalar value wins whatever the name table says; else (no reading, overflow, surrogate, above 0x10FFFF) the name lookup decides; `None` exactly when all three fail |
| ScalarParse.CodeColumnParsesBack | src/lib.rs:156-171 | a code printed by the one-line view parses back to the character when it has two or more digits or a `+` is put in front; a one-digit code parses as the digit character instead |
| ScalarParse.NameParsesBack | src/lib.rs:173-176 | under an invertible name table a character's name parses back to it unless the name is one character or a hex scalar reading |
| ScalarParse.SingleCharacterExample | src/lib.rs:159-164 | `"A"` is the letter A, not the code 0xA |
| ScalarParse.HexExamples | src/lib.rs:166-171 | `"41"` and `"+4a"` are read as codes U+0041 and U+004A |
| ScalarParse.NotHexExamples | src/lib.rs:166-176 | `"-41"`, `"0x41"` and the empty string have no hex reading and go to the name lookup |
| ScalarParse.SurrogateExample | src/lib.rs:168-176 | `"D800"` is a surrogate, not a character, and goes to the name lookup |
| ScalarParse.AboveMaxExample | src/lib.rs:168-176 | `"110000"` is above 0x10FFFF and goes to the name lookup |
| ScalarParse.OverflowExample | src/lib.rs:167-176 | `"100000041"` overflows `u32` and goes to the name lookup |
| BlockSearch.Search | src/lib.rs:181-199 | the nested scan returns exactly the characters that lie in some block, have a name and whose name matches; over an ascending table the result is strictly ascending, hence without repeats |
| BlockSearch.ScanRangeMembership | src/lib.rs:185-194 | one block's scan yields exactly the named, matching characters of its range; unnamed code points never appear |
| BlockSearch.ScanRangeIncreasing | src/lib.rs:185 | one block's scan is strictly ascending |
| BlockSearch.ScanBlocksMembership | src/lib.rs:184-195 | the whole scan is sound and complete for "in some block, named, name matches" |
| BlockSearch.ScanBlocksIncreasing | src/lib.rs:184-185 | ascending, disjoint blocks give a strictly ascending result |
| CharRecord.InfoOf | src/lib.rs:28-42 | the record is missing exactly when the name, the containing block or the age is missing; otherwise each field is its table's value and the block field names a block containing the character |
| CharRecord.InfoBlockIsContainingBlock | src/lib.rs:32 | over an ascending table a record's character lies in exactly one block, whose name the record carries |
| CharRecord.CategoryNeverFails | src/lib.rs:31 | changing the category table never changes whether a record exists, only its category field |
| CharRecord.InfoNameRoundTrip | src/lib.rs:30 | under an invertible name table the record's name looks up to its character |
| CharDisplay.CharType | src/lib.rs:148-154 | the type letter is `a` exactly for codes below 0x80 and `u` otherwise |
| CharDisplay.RenderFlags | src/lib.rs:111-117 | one column per flag pair: its letter when the predicate holds, else a dash |
| CharDisplay.FlagString | src/lib.rs:100-117 | six columns in the order alphabetic, bidi-mirrored, cased, case-ignorable, uppercase, lowercase, each the letter a, b, c, i, u, l or a dash |
| CharDisplay.FlagsAgreeWithRecord | src/lib.rs:100-107 | the flags of the one-line view equal those read off the `Info::of` record |
| CharDisplay.HexColumnReadsBack | src/lib.rs:119 | the `{:6X}` column is six wide for every character and, without its padding, parses back to the code |
| CharDisplay.LineText | src/lib.rs:99-137 | nothing at level 0; from level 2 the line opens with the type letter (`a` or `u`), the flags, a space, the space-padded six-wide `{:6X}` code column (which reads back to the character) and a space, and is exactly fifteen columns longer than the block-and-name tail, so the tail follows the head directly; at level 1 the line is the tail alone; from level 1 on the line ends with the block column (`Unknown Block` outside every block), a space, the name (`None` when unnamed), a space and the end of line |
| CharDisplay.LineEndsWithTail | src/lib.rs:122-136 | a line ending in the block-and-name tail ends its line, shows the character's name or `None` as its last column, and `Unknown Block` before it for a character outside every block |
| CharDisplay.LineOpensWithHead | src/lib.rs:109-120 | a line opening with the head shows the type letter, the flags and the space-padded code column in their fixed places, and the code column reads back to the character |
| CharDisplay.BlockReportOf | src/lib.rs:81-97 | the block view reports nothing exactly when there is no block, or no name and a non-ASCII character; it reports the name when there is one, and always a containing block's name |
| CharDisplay.RenderBlockReport | src/lib.rs:83-95 | the block view prints nothing exactly for no report; otherwise three lines and nothing else: `type: Unicode` and `name: ` with the name, or `type: ASCII` and `name: unknown`, then `block: ` with the block's name; its length is exactly that of these three lines |
| CharDisplay.BlockReportAgreesWithRecord | src/lib.rs:82-87 | for a character with a record the block view reports the record's name and block |
| CharDisplay.ViewFor | src/lib.rs:73-79 | level 9 selects the block view, level 0 the bare character, any other level the line view |
| CharDisplay.Display | src/lib.rs:73-141 | level 0 prints the bare character; level 9 prints nothing exactly when there is no block or neither a name nor an ASCII character, otherwise opens with `type: Unicode` and the name when there is one or `type: ASCII` and `name: unknown` for an unnamed ASCII character, and ends with the block's name; other levels print one line that ends with the block and name columns; at level 1 that tail is the whole line, and from level 2 on it follows the type letter, the flags and the code column |

## Left out

- The contents of the Unicode tables (`unicode_names2::name` and `character`, `GeneralCategory::of`, `Block::of`, `BlockIter`, `Age::of`, the `is_*` predicates): foreign data, modelled as uninterpreted functions of a `Ucd` value.
- The `regex` engine: a pattern is an arbitrary predicate on names.
- `Block::of` is a binary search in the crate; the model uses the first containing block of the same table, which is the same block whenever the table is ascending (`BlockOfUnique`).
- The `fmt::Display` implementation for `Info` (src/lib.rs:45-60): presentation only; it prints the alphabetic property twice, at lines 50 and 57.
- The `debug!` line for unnamed code points inside `search` (src/lib.rs:193): logging, no effect on the result.
- `is_unicode` (src/lib.rs:144-146): unused by the program.
- `CharInfo::new` (src/lib.rs:67-71): it only stores the verbosity level, which the model passes directly as `long`.
- Output is modelled as the text each view prints; writing it to standard output is not modelled.
- `long` is a `usize` in `src/lib.rs` and a `nat` here; every level behaves the same in both, so its width does not matter.
- `from_str_radix` reads UTF-8 bytes; the model reads characters. A non-ASCII character is never a digit in either, so the results agree.
- The `Name` type of `unicode_names2` is modelled by the string it displays as.

=== FILE: display.dfy ===
/**
 * `CharInfo::display` and its three views, modelled as the text they
 * would print. The verbosity level `long` picks the view: 9 the block
 * summary, 0 the bare character, anything else the one-line view, which
 * shows the type letter, flags and code from level 2 on and the block and
 * name from level 1 on.
 */
module CharDisplay {
  import opened Wrappers
  import opened UnicodeData
  import opened Radix
  import opened CharRecord

  /** `chartype`: `a` for an ASCII character, `u` for any other. */
  function CharType(c: char): (r: char)
    ensures r == 'a' <==> c as int < 0x80
    ensures r == 'u' <==> c as int >= 0x80
  {
    if IsAscii(c) then 'a' else 'u'
  }

  /** The (letter, predicate) pairs of the one-line view, in their fixed order. */
  function FlagTable(ucd: Ucd): seq<(char, char -> bool)> {
    [ ('a', ucd.isAlphabetic), ('b', ucd.isBidiMirrored), ('c', ucd.isCased),
      ('i', ucd.isCaseIgnorable), ('u', ucd.isUppercase), ('l', ucd.isLowercase) ]
  }

  /** One letter or dash per pair, as the loop over the flag array prints them. */
  function RenderFlags(flags: seq<(char, char -> bool)>, c: char): (r: string)
    ensures |r| == |flags|
    ensures forall k :: 0 <= k < |flags| ==> r[k] == (if flags[k].1(c) then flags[k].0 else '-')
  {
    if |flags| == 0 then []
    else [if flags[0].1(c) then flags[0].0 else '-'] + RenderFlags(flags[1..], c)
  }

  /**
   * The six-column flag string: alphabetic, bidi-mirrored, cased,
   * case-ignorable, uppercase, lowercase, each its letter when the property
   * holds and a dash when it does not.
   */
  function FlagString(ucd: Ucd, c: char): (r: string)
    ensures |r| == 6
    ensures r[0] == (if ucd.isAlphabetic(c) then 'a' else '-')
    ensures r[1] == (if ucd.isBidiMirrored(c) then 'b' else '-')
    ensures r[2] == (if ucd.isCased(c) then 'c' else '-')
    ensures r[3] == (if ucd.isCaseIgnorable(c) then 'i' else '-')
    ensures r[4] == (if ucd.isUppercase(c) then 'u' else '-')
    ensures r[5] == (if ucd.isLowercase(c) then 'l' else '-')
  {
    RenderFlags(FlagTable(ucd), c)
  }

  /** The same six flags read off a metadata record instead of the tables. */
  function RecordFlags(info: Info): string {
    [ if info.alphabetic then 'a' else '-', if info.bidiMirrored then 'b' else '-',
      if info.cased then 'c' else '-', if info.caseIgnorable then 'i' else '-',
      if info.uppercase then 'u' else '-', if info.lowercase then 'l' else '-' ]
  }

  /** The flags of the one-line view agree with the record `Info::of` builds. */
  lemma FlagsAgreeWithRecord(ucd: Ucd, c: char)
    requires InfoOf(ucd, c).Some?
    ensures FlagString(ucd, c) == RecordFlags(InfoOf(ucd, c).value)
  {
    var f := FlagString(ucd, c);
    var g := RecordFlags(InfoOf(ucd, c).value);
    assert forall k :: 0 <= k < 6 ==> f[k] == g[k];
  }

  /** `{:6X}`: the upper-case hex code, right-aligned in six columns. */
  function HexColumn(n: nat): string {
    var h := UpperHex(n);
    if |h| < 6 then seq(6 - |h|, _ => ' ') + h else h
  }

  /** `s` without its leading spaces: a suffix of `s`, only spaces removed, not itself starting with one. */
  function TrimLeadingSpaces(s: string): (r: string)
    ensures |r| <= |s| && r == s[|s| - |r|..]
    ensures forall i :: 0 <= i < |s| - |r| ==> s[i] == ' '
    ensures 0 < |r| ==> r[0] != ' '
  {
    if 0 < |s| && s[0] == ' ' then TrimLeadingSpaces(s[1..]) else s
  }

  /** The code column of a character is six wide and, without its padding, parses back to the code. */
  lemma HexColumnReadsBack(c: char)
    ensures |HexColumn(c as int)| == 6
    ensures TrimLeadingSpaces(HexColumn(c as int)) == UpperHex(c as int)
    ensures FromStrRadix16(TrimLeadingSpaces(HexColumn(c as int))) == Ok(c as int)
  {
    HexColumnShape(c as int);
    UpperHexRoundTrip(c as int);
  }

  /** Up to 0xFFFFFF the column is six wide and is the digits behind space padding. */
  lemma HexColumnShape(n: nat)
    requires n <= 0xFF_FFFF
    ensures |HexColumn(n)| == 6
    ensures TrimLeadingSpaces(HexColumn(n)) == UpperHex(n)
  {
    var h := UpperHex(n);
    UpperHexAtMostSix(n);
    assert h[0] != ' ' by { assert IsHexDigit(h[0]); }
    if |h| < 6 {
      var pad := seq(6 - |h|, _ => ' ');
      assert HexColumn(n) == pad + h;
      PaddingTrims(pad, h);
    }
  }

  lemma UpperHexAtMostSix(n: nat)
    requires n <= 0xFF_FFFF
    ensures |UpperHex(n)| <= 6
  {
    assert Pow16(6) == 0x100_0000;
    UpperHexLength(n, 6);
  }

  lemma {:induction false} PaddingTrims(pad: string, h: string)
    requires forall i :: 0 <= i < |pad| ==> pad[i] == ' '
    requires 0 < |h| && h[0] != ' '
    ensures TrimLeadingSpaces(pad + h) == h
    decreases |pad|
  {
    if |pad| == 0 {
      assert pad + h == h;
    } else {
      assert (pad + h)[1..] == pad[1..] + h;
      PaddingTrims(pad[1..], h);
    }
  }

  /** The block column: the block's name, or `Unknown Block`. */
  function BlockColumn(ucd: Ucd, c: char): string {
    match BlockOf(ucd.blocks, c)
    case Some(block) => block.name
    case None => "Unknown Block"
  }

  /** The name column: the name, or `None`. */
  function NameColumn(ucd: Ucd, c: char): string {
    match ucd.name(c)
    case Some(name) => name
    case None => "None"
  }

  /** The type letter, flags and code of the one-line view, each followed by the one space the program prints after it. */
  function LineHead(ucd: Ucd, c: char): string {
    [CharType(c)] + FlagString(ucd, c) + " " + HexColumn(c as int) + " "
  }

  /**
   * `display_line`: nothing at level 0; from level 2 on the line opens with
   * fifteen columns (type letter, six flags, a space, the code, which reads
   * back to the character, and a space); from level 1 on it ends with the
   * block column, the name column and the end of line, which at level 1 is
   * the whole line.
   */
  function LineText(ucd: Ucd, long: nat, c: char): (r: string)
    ensures long == 0 ==> r == ""
    ensures long >= 1 ==> 0 < |r| && r[|r| - 1] == '\n'
    ensures long == 1 ==> StartsWith(r, BlockColumn(ucd, c))
    ensures long >= 1 ==> EndsWith(r, LineTail(ucd, c))
    ensures long >= 1 && ucd.name(c).Some? ==> EndsWith(r, " " + ucd.name(c).value + " \n")
    ensures long >= 1 && ucd.name(c).None? ==> EndsWith(r, " None \n")
    ensures long >= 1 && !InSomeBlock(ucd.blocks, c) ==>
      EndsWith(r, "Unknown Block " + NameColumn(ucd, c) + " \n")
    ensures long == 1 ==> |r| == |LineTail(ucd, c)|
    ensures long >= 2 ==> |r| == 15 + |LineTail(ucd, c)|
    ensures long >= 2 ==>
      && |r| > 15
      && r[0] == CharType(c)
      && r[1..7] == FlagString(ucd, c)
      && r[7] == ' ' && r[14] == ' '
      && r[8..14] == HexColumn(c as int)
      && FromStrRadix16(TrimLeadingSpaces(r[8..14])) == Ok(c as int)
  {
    var tail := if long >= 1 then LineTail(ucd, c) else "";
    if long >= 2 then
      var r := LineHead(ucd, c) + tail;
      LineOpensWithHead(ucd, c, tail);
      SuffixOfConcat(LineHead(ucd, c), tail);
      LineEndsWithTail(ucd, c, r);
      r
    else
      if long == 1 then LineEndsWithTail(ucd, c, tail); tail else tail
  }

  /** The block and name columns, each followed by a space, and the end of the line. */
  function LineTail(ucd: Ucd, c: char): string {
    BlockColumn(ucd, c) + " " + NameColumn(ucd, c) + " \n"
  }

  /** A line ending in the tail ends its line with the name, or `None`, and shows `Unknown Block` outside every block. */
  lemma LineEndsWithTail(ucd: Ucd, c: char, r: string)
    requires EndsWith(r, LineTail(ucd, c))
    ensures 0 < |r| && r[|r| - 1] == '\n'
    ensures ucd.name(c).Some? ==> EndsWith(r, " " + ucd.name(c).value + " \n")
    ensures ucd.name(c).None? ==> EndsWith(r, " None \n")
    ensures !InSomeBlock(ucd.blocks, c) ==> EndsWith(r, "Unknown Block " + NameColumn(ucd, c) + " \n")
  {
    var t := LineTail(ucd, c);
    assert r[|r| - |t|..] == t;
    assert r[|r| - 1] == t[|t| - 1];
    var x := " " + NameColumn(ucd, c) + " \n";
    assert t == BlockColumn(ucd, c) + x;
    assert r[|r| - |x|..] == t[|t| - |x|..];
  }

  lemma SuffixOfConcat(a: string, b: string)
    ensures EndsWith(a + b, b)
  {
    assert (a + b)[|a|..] == b;
  }

  /** A line that opens with the head shows the head's columns in place. */
  lemma LineOpensWithHead(ucd: Ucd, c: char, tail: string)
    ensures var r := LineHead(ucd, c) + tail;
      && |r| == 15 + |tail|
      && r[0] == CharType(c)
      && r[1..7] == FlagString(ucd, c)
      && r[7] == ' ' && r[14] == ' '
      && r[8..14] == HexColumn(c as int)
      && FromStrRadix16(TrimLeadingSpaces(r[8..14])) == Ok(c as int)
  {
    var head := LineHead(ucd, c);
    LineHeadLayout(ucd, c);
    HexColumnReadsBack(c);
    PrefixOfConcat(head, tail);
  }

  /** The head is fifteen columns: type letter, six flags, a space, the six-wide code, a space. */
  lemma LineHeadLayout(ucd: Ucd, c: char)
    ensures var head := LineHead(ucd, c);
      && |head| == 15
      && head[0] == CharType(c)
      && head[1..7] == FlagString(ucd, c)
      && head[7] == ' ' && head[14] == ' '
      && head[8..14] == HexColumn(c as int)
  {
    HexColumnReadsBack(c);
    FiveColumns(CharType(c), FlagString(ucd, c), HexColumn(c as int));
  }

  lemma FiveColumns(t: char, flags: string, code: string)
    requires |flags| == 6 && |code| == 6
    ensures var h := [t] + flags + " " + code + " ";
      && |h| == 15 && h[0] == t && h[1..7] == flags
      && h[7] == ' ' && h[8..14] == code && h[14] == ' '
  {
    var h := [t] + flags + " " + code + " ";
    assert h[1..7] == flags;
    assert h[8..14] == code;
  }

  lemma PrefixOfConcat(a: string, b: string)
    ensures (a + b)[..|a|] == a
    ensures forall i, j :: 0 <= i <= j <= |a| ==> (a + b)[i..j] == a[i..j]
  {
  }

  /** What the block view reports: a named character, an unnamed ASCII one, or nothing. */
  datatype BlockReport =
    | UnicodeReport(name: string, block: string)
    | AsciiReport(block: string)
    | NoReport

  /**
   * `display_block`'s decision: a report needs a containing block, and
   * either a name or an ASCII character; the name is reported when known.
   */
  function BlockReportOf(ucd: Ucd, c: char): (r: BlockReport)
    ensures r.NoReport? <==> !InSomeBlock(ucd.blocks, c) || (ucd.name(c).None? && !IsAscii(c))
    ensures r.UnicodeReport? <==> InSomeBlock(ucd.blocks, c) && ucd.name(c).Some?
    ensures r.UnicodeReport? ==> Some(r.name) == ucd.name(c)
    ensures !r.NoReport? ==>
      exists i :: 0 <= i < |ucd.blocks| && InBlock(ucd.blocks[i], c) && ucd.blocks[i].name == r.block
  {
    match (ucd.name(c), BlockOf(ucd.blocks, c))
    case (Some(name), Some(block)) => UnicodeReport(name, block.name)
    case (None, Some(block)) => if IsAscii(c) then AsciiReport(block.name) else NoReport
    case _ => NoReport
  }

  predicate StartsWith(s: string, prefix: string) {
    |prefix| <= |s| && s[..|prefix|] == prefix
  }

  predicate EndsWith(s: string, suffix: string) {
    |suffix| <= |s| && s[|s| - |suffix|..] == suffix
  }

  /**
   * The block view's text: nothing for no report, otherwise three lines,
   * the type, the name (`unknown` for an unnamed ASCII character) and the
   * block.
   */
  function RenderBlockReport(rep: BlockReport): (r: string)
    ensures r == "" <==> rep.NoReport?
    ensures rep.UnicodeReport? ==> StartsWith(r, "type: Unicode\nname: " + rep.name + "\n")
    ensures rep.AsciiReport? ==> StartsWith(r, "type: ASCII\nname: unknown\n")
    ensures rep.UnicodeReport? ==>
      |r| == |"type: Unicode\nname: " + rep.name + "\n"| + |"block: " + rep.block + "\n"|
    ensures rep.AsciiReport? ==>
      |r| == |"type: ASCII\nname: unknown\n"| + |"block: " + rep.block + "\n"|
    ensures !rep.NoReport? ==> EndsWith(r, "\nblock: " + rep.block + "\n")
  {
    match rep
    case UnicodeReport(name, block) => "type: Unicode\nname: " + name + "\nblock: " + block + "\n"
    case AsciiReport(block) => "type: ASCII\nname: unknown\nblock: " + block + "\n"
    case NoReport => ""
  }

  /** The block view and `Info::of` agree on a character that has a record. */
  lemma BlockReportAgreesWithRecord(ucd: Ucd, c: char)
    requires InfoOf(ucd, c).Some?
    ensures BlockReportOf(ucd, c)
            == UnicodeReport(InfoOf(ucd, c).value.name, InfoOf(ucd, c).value.block)
  {
  }

  /** The three shapes `display` chooses between. */
  datatype View = BlockView | PrintView | LineView

  /** The dispatch on the verbosity level. */
  function ViewFor(long: nat): (v: View)
    ensures v == BlockView <==> long == 9
    ensures v == PrintView <==> long == 0
    ensures v == LineView <==> long != 0 && long != 9
  {
    match long
    case 9 => BlockView
    case 0 => PrintView
    case _ => LineView
  }

  /**
   * `CharInfo::display`: level 0 prints the bare character; level 9 prints
   * the block summary, nothing exactly when there is no block or neither a
   * name nor an ASCII character, the name when there is one, `unknown` for
   * an unnamed ASCII character, and the block last; every other level
   * prints one line ending with the block and name columns, which is the
   * whole line at level 1 and follows the type letter, flags and code
   * column from level 2 on.
   */
  function Display(ucd: Ucd, long: nat, c: char): (r: string)
    ensures long == 0 ==> r == [c]
    ensures long == 9 ==>
      (r == "" <==> !InSomeBlock(ucd.blocks, c) || (ucd.name(c).None? && !IsAscii(c)))
    ensures long == 9 && InSomeBlock(ucd.blocks, c) && ucd.name(c).Some? ==>
      StartsWith(r, "type: Unicode\nname: " + ucd.name(c).value + "\n")
    ensures long == 9 && InSomeBlock(ucd.blocks, c) && ucd.name(c).None? && IsAscii(c) ==>
      StartsWith(r, "type: ASCII\nname: unknown\n")
    ensures long == 9 && r != "" ==> EndsWith(r, "\nblock: " + BlockColumn(ucd, c) + "\n")
    ensures long != 0 && long != 9 ==> 0 < |r| && r[|r| - 1] == '\n'
    ensures long != 0 && long != 9 ==> EndsWith(r, LineTail(ucd, c))
    ensures long == 1 ==> |r| == |LineTail(ucd, c)|
    ensures long >= 2 && long != 9 ==>
      && |r| == 15 + |LineTail(ucd, c)|
      && r[0] == CharType(c) && r[1..7] == FlagString(ucd, c)
      && r[8..14] == HexColumn(c as int)
  {
    match ViewFor(long)
    case BlockView => RenderBlockReport(BlockReportOf(ucd, c))
    case PrintView => [c]
    case LineView => LineText(ucd, long, c)
  }
}

=== FILE: info.dfy ===
/**
 * `Info::of`: the full metadata record of one character, built all or
 * nothing. The record exists exactly when the name, the containing block and
 * the age are all known; the category and the seven binary properties are
 * total and never cause failure.
 */
module CharRecord {
  import opened Wrappers
  import opened UnicodeData

  datatype Info = Info(
    name: string,
    category: GeneralCategory,
    block: string,
    alphabetic: bool,
    bidiMirrored: bool,
    caseIgnorable: bool,
    cased: bool,
    lowercase: bool,
    uppercase: bool,
    whitespace: bool,
    age: Age)

  function InfoOf(ucd: Ucd, c: char): (r: Option<Info>)
    ensures r.None? <==> ucd.name(c).None? || !InSomeBlock(ucd.blocks, c) || ucd.age(c).None?
    ensures r.Some? ==>
      && Some(r.value.name) == ucd.name(c)
      && r.value.category == ucd.category(c)
      && (exists i :: 0 <= i < |ucd.blocks| && InBlock(ucd.blocks[i], c) && ucd.blocks[i].name == r.value.block)
      && Some(r.value.age) == ucd.age(c)
    ensures r.Some? ==>
      && r.value.alphabetic == ucd.isAlphabetic(c)
      && r.value.bidiMirrored == ucd.isBidiMirrored(c)
      && r.value.caseIgnorable == ucd.isCaseIgnorable(c)
      && r.value.cased == ucd.isCased(c)
      && r.value.lowercase == ucd.isLowercase(c)
      && r.value.uppercase == ucd.isUppercase(c)
      && r.value.whitespace == ucd.isWhiteSpace(c)
  {
    match (ucd.name(c), BlockOf(ucd.blocks, c), ucd.age(c))
    case (Some(name), Some(block), Some(age)) =>
      Some(Info(
        name := name,
        category := ucd.category(c),
        block := block.name,
        alphabetic := ucd.isAlphabetic(c),
        bidiMirrored := ucd.isBidiMirrored(c),
        caseIgnorable := ucd.isCaseIgnorable(c),
        cased := ucd.isCased(c),
        lowercase := ucd.isLowercase(c),
        uppercase := ucd.isUppercase(c),
        whitespace := ucd.isWhiteSpace(c),
        age := age))
    case _ => None
  }

  /**
   * Over an ascending block table a record's character lies in exactly one
   * block, and the record carries that block's name.
   */
  lemma InfoBlockIsContainingBlock(ucd: Ucd, c: char)
    requires BlocksAscending(ucd.blocks)
    requires InfoOf(ucd, c).Some?
    ensures exists i :: 0 <= i < |ucd.blocks| && InBlock(ucd.blocks[i], c)
    ensures forall i :: 0 <= i < |ucd.blocks| && InBlock(ucd.blocks[i], c) ==>
                        ucd.blocks[i].name == InfoOf(ucd, c).value.block
  {
    var r := InfoOf(ucd, c).value;
    var k :| 0 <= k < |ucd.blocks| && InBlock(ucd.blocks[k], c) && ucd.blocks[k].name == r.block;
    BlockOfUnique(ucd.blocks, k, c);
  }

  /** Whatever the category table says, it never decides whether a record exists. */
  lemma CategoryNeverFails(ucd: Ucd, c: char, category: char -> GeneralCategory)
    ensures InfoOf(ucd.(category := category), c).Some? == InfoOf(ucd, c).Some?
    ensures InfoOf(ucd, c).Some? ==>
              InfoOf(ucd.(category := category), c).value
              == InfoOf(ucd, c).value.(category := category(c))
  {
  }

  /** Under an invertible name table the record's name leads back to its character. */
  lemma InfoNameRoundTrip(ucd: Ucd, c: char)
    requires NamesInvertible(ucd)
    requires InfoOf(ucd, c).Some?
    ensures ucd.character(InfoOf(ucd, c).value.name) == Some(c)
  {
  }
}

=== FILE: radix.dfy ===
/**
 * The two standard-library conversions `parse_scalar_value` relies on:
 * `u32::from_str_radix(s, 16)` and `char::from_u32`, together with the
 * `{:X}` rendering used by the one-line view. The parser is written as the
 * library runs it (left to right, checked multiply then checked add); its
 * meaning is stated by `HexReading`, the positional value of the digits.
 */
module Radix {
  import opened Wrappers
  import opened UnicodeData

  const U32_MAX: int := 0xFFFF_FFFF

  /** The kinds of `ParseIntError` an unsigned parse can report. */
  datatype IntErrorKind = Empty | InvalidDigit | PosOverflow

  datatype ParseResult = Ok(value: nat) | Err(kind: IntErrorKind)

  predicate IsHexDigit(ch: char) {
    '0' <= ch <= '9' || 'a' <= ch <= 'f' || 'A' <= ch <= 'F'
  }

  /** `char::to_digit(16)`: either case is accepted. */
  function ToDigit(ch: char): (r: Option<nat>)
    ensures r.Some? <==> IsHexDigit(ch)
    ensures r.Some? ==> r.value < 16
    ensures '0' <= ch <= '9' ==> r == Some(ch as int - 0x30)
    ensures 'a' <= ch <= 'f' ==> r == Some(ch as int - 0x61 + 10)
    ensures 'A' <= ch <= 'F' ==> r == Some(ch as int - 0x41 + 10)
  {
    if '0' <= ch <= '9' then Some(ch as int - '0' as int)
    else if 'a' <= ch <= 'z' && ch as int - 'a' as int + 10 < 16 then Some(ch as int - 'a' as int + 10)
    else if 'A' <= ch <= 'Z' && ch as int - 'A' as int + 10 < 16 then Some(ch as int - 'A' as int + 10)
    else None
  }

  /** A lower-case digit has the value of its upper-case twin. */
  lemma ToDigitIgnoresCase(ch: char)
    requires 'a' <= ch <= 'f'
    ensures ToDigit(ch) == ToDigit((ch as int - 32) as char)
  {
  }

  function Pow16(k: nat): (r: nat)
    ensures r >= 1
  {
    if k == 0 then 1 else 16 * Pow16(k - 1)
  }

  predicate AllHexDigits(d: string) {
    forall i :: 0 <= i < |d| ==> IsHexDigit(d[i])
  }

  /** The positional value of a digit string: the sum of digit i times 16^(|d|-1-i). */
  function HexValue(d: string): nat
    requires AllHexDigits(d)
  {
    if |d| == 0 then 0 else ToDigit(d[0]).value * Pow16(|d| - 1) + HexValue(d[1..])
  }

  /** The digits after the one optional leading `+`. */
  function DigitsOf(s: string): string {
    if 0 < |s| && s[0] == '+' then s[1..] else s
  }

  /**
   * What `s` denotes as a base-16 `u32`: one or more hexadecimal digits of
   * either case, optionally after one `+`, whose value fits in 32 bits.
   */
  function HexReading(s: string): Option<nat> {
    var d := DigitsOf(s);
    if 0 < |d| && AllHexDigits(d) && HexValue(d) <= U32_MAX then Some(HexValue(d)) else None
  }

  /** The digit loop of `from_str_radix` on an unsigned 32-bit target. */
  function Accumulate(d: string, acc: nat): (r: ParseResult)
    requires acc <= U32_MAX
    ensures r.Ok? ==> acc <= r.value <= U32_MAX
    ensures r.Err? ==> r.kind != Empty
    decreases |d|
  {
    if |d| == 0 then Ok(acc)
    else match ToDigit(d[0])
      case None => Err(InvalidDigit)
      case Some(x) =>
        if acc * 16 > U32_MAX then Err(PosOverflow)
        else if acc * 16 + x > U32_MAX then Err(PosOverflow)
        else Accumulate(d[1..], acc * 16 + x)
  }

  /**
   * `u32::from_str_radix(s, 16)`. An empty string is `Empty`; a lone sign is
   * `InvalidDigit`; `+` may lead, `-` may not (it is then an invalid digit).
   */
  function FromStrRadix16(s: string): (r: ParseResult)
    ensures r.Ok? ==> r.value <= U32_MAX
    ensures r == Err(Empty) <==> |s| == 0
  {
    if |s| == 0 then Err(Empty)
    else if (s[0] == '+' || s[0] == '-') && |s| == 1 then Err(InvalidDigit)
    else if s[0] == '+' then Accumulate(s[1..], 0)
    else Accumulate(s, 0)
  }

  /** `char::from_u32`: a `char` exactly for the scalar values. */
  function FromU32(n: nat): (r: Option<char>)
    requires n <= U32_MAX
    ensures r.Some? <==> IsScalarValue(n)
    ensures r.Some? ==> r.value as int == n
  {
    if n > 0x10FFFF || (0xD800 <= n && n <= 0xDFFF) then None else Some(n as char)
  }

  /** A `char` converts back to itself through its code. */
  lemma FromU32RoundTrip(c: char)
    ensures FromU32(c as int) == Some(c)
  {
  }

  lemma {:induction false} AccumulateValue(d: string, acc: nat)
    requires acc <= U32_MAX
    ensures Accumulate(d, acc).Ok? <==> AllHexDigits(d) && acc * Pow16(|d|) + HexValue(d) <= U32_MAX
    ensures Accumulate(d, acc).Ok? ==>
              AllHexDigits(d) && Accumulate(d, acc).value == acc * Pow16(|d|) + HexValue(d)
    decreases |d|
  {
    if |d| == 0 {
    } else {
      var n := |d|;
      match ToDigit(d[0])
      case None =>
        assert !IsHexDigit(d[0]);
      case Some(x) =>
        assert AllHexDigits(d) <==> AllHexDigits(d[1..]) by {
          if AllHexDigits(d[1..]) {
            forall i | 0 <= i < |d| ensures IsHexDigit(d[i]) {
              if i > 0 { assert d[i] == d[1..][i - 1]; }
            }
          }
        }
        var acc' := acc * 16 + x;
        if AllHexDigits(d) {
          var p := Pow16(n - 1);
          assert Pow16(n) == 16 * p;
          assert HexValue(d) == x * p + HexValue(d[1..]);
          ShiftStep(acc, x, p);
          assert acc * Pow16(n) + HexValue(d) == acc' * p + HexValue(d[1..]);
        }
        if acc' <= U32_MAX {
          AccumulateValue(d[1..], acc');
        }
    }
  }

  /** One digit step of the positional value: (16 acc + x) p is 16 acc p plus x p. */
  lemma ShiftStep(acc: nat, x: nat, p: nat)
    ensures acc * (16 * p) + x * p == (acc * 16 + x) * p
    ensures p >= 1 ==> (acc * 16 + x) * p >= acc * 16 + x
  {
    assert (acc * 16 + x) * p == acc * 16 * p + x * p;
  }

  lemma ScaleBy16(x: nat, p: nat)
    ensures x * (16 * p) == 16 * (x * p)
  {
  }

  /** `from_str_radix` succeeds exactly on the strings with a base-16 `u32` reading, with that value. */
  lemma FromStrRadix16Meaning(s: string)
    ensures FromStrRadix16(s).Ok? <==> HexReading(s).Some?
    ensures FromStrRadix16(s).Ok? ==> FromStrRadix16(s).value == HexReading(s).value
  {
    if |s| == 0 {
    } else if (s[0] == '+' || s[0] == '-') && |s| == 1 {
      assert !IsHexDigit(s[0]);
    } else if s[0] == '+' {
      AccumulateValue(s[1..], 0);
    } else {
      AccumulateValue(s, 0);
    }
  }

  /** An upper-case hexadecimal digit. */
  function UpperDigit(v: nat): (ch: char)
    requires v < 16
    ensures IsHexDigit(ch) && ToDigit(ch) == Some(v)
    ensures !('a' <= ch <= 'f')
  {
    if v < 10 then ('0' as int + v) as char else ('A' as int + v - 10) as char
  }

  /** `{:X}` of a `u32`: upper-case digits without leading zeros. */
  function UpperHex(n: nat): (r: string)
    ensures 0 < |r| && AllHexDigits(r)
    ensures forall i :: 0 <= i < |r| ==> !('a' <= r[i] <= 'f')
    ensures r[0] == '0' ==> n == 0
    decreases n
  {
    if n < 16 then [UpperDigit(n)] else UpperHex(n / 16) + [UpperDigit(n % 16)]
  }

  lemma {:induction false} HexValueSnoc(d: string, ch: char)
    requires AllHexDigits(d) && IsHexDigit(ch)
    ensures AllHexDigits(d + [ch])
    ensures HexValue(d + [ch]) == 16 * HexValue(d) + ToDigit(ch).value
    decreases |d|
  {
    var e := d + [ch];
    assert AllHexDigits(e) by {
      forall i | 0 <= i < |e| ensures IsHexDigit(e[i]) {
        if i < |d| { assert e[i] == d[i]; }
      }
    }
    if |d| == 0 {
      assert e == [ch];
    } else {
      assert e[0] == d[0];
      assert e[1..] == d[1..] + [ch];
      HexValueSnoc(d[1..], ch);
      var p := Pow16(|d| - 1);
      var x := ToDigit(d[0]).value;
      var h := HexValue(d[1..]);
      assert HexValue(e) == x * Pow16(|d|) + (16 * h + ToDigit(ch).value);
      assert Pow16(|d|) == 16 * p;
      assert HexValue(d) == x * p + h;
      ScaleBy16(x, p);
    }
  }

  /** The digits `{:X}` prints denote the number printed. */
  lemma {:induction false} UpperHexValue(n: nat)
    ensures HexValue(UpperHex(n)) == n
    decreases n
  {
    if n >= 16 {
      UpperHexValue(n / 16);
      HexValueSnoc(UpperHex(n / 16), UpperDigit(n % 16));
    } else {
      assert UpperHex(n)[1..] == [];
    }
  }

  /** `{:X}` needs at most k digits for a number below 16^k. */
  lemma {:induction false} UpperHexLength(n: nat, k: nat)
    requires 1 <= k && n < Pow16(k)
    ensures |UpperHex(n)| <= k
    decreases k
  {
    if n >= 16 {
      assert k >= 2;
      UpperHexLength(n / 16, k - 1);
    }
  }

  /**
   * Printing a `u32` in hexadecimal and parsing it back gives the number,
   * with or without a leading `+`.
   */
  lemma UpperHexRoundTrip(n: nat)
    requires n <= U32_MAX
    ensures FromStrRadix16(UpperHex(n)) == Ok(n)
    ensures FromStrRadix16("+" + UpperHex(n)) == Ok(n)
  {
    UpperHexValue(n);
    var h := UpperHex(n);
    assert h[0] != '+' && h[0] != '-' by { assert IsHexDigit(h[0]); }
    assert DigitsOf(h) == h;
    FromStrRadix16Meaning(h);
    assert ("+" + h)[1..] == h;
    assert DigitsOf("+" + h) == h;
    FromStrRadix16Meaning("+" + h);
  }
}

=== FILE: scalar_parse.dfy ===
/**
 * `parse_scalar_value`: turning a command-line argument into a character.
 * Three readings are tried in a fixed order: the argument is a single
 * character; it is a base-16 `u32` that is a scalar value; it is a name the
 * name table knows.
 */
module ScalarParse {
  import opened Wrappers
  import opened UnicodeData
  import opened Radix

  /** The character the hexadecimal reading of `s` denotes, if it denotes one. */
  function HexScalar(s: string): Option<char> {
    match HexReading(s)
    case Some(v) => if IsScalarValue(v) then Some(v as char) else None
    case None => None
  }

  /**
   * A one-character string is that character, even when it is a hex digit;
   * otherwise a hex reading that is a scalar value wins, whatever the name
   * table says; otherwise (no hex reading, an overflowing one, a surrogate,
   * or one above 0x10FFFF) the answer is the name lookup's.
   */
  function ParseScalarValue(ucd: Ucd, s: string): (r: Option<char>)
    ensures |s| == 1 ==> r == Some(s[0])
    ensures |s| != 1 && HexScalar(s).Some? ==> r == HexScalar(s)
    ensures |s| != 1 && HexScalar(s).None? ==> r == ucd.character(s)
    ensures r.None? <==> |s| != 1 && HexScalar(s).None? && ucd.character(s).None?
  {
    FromStrRadix16Meaning(s);
    if |s| == 1 then Some(s[0])
    else match FromStrRadix16(s)
      case Ok(raw) =>
        (match FromU32(raw)
         case Some(c) => Some(c)
         case None => ucd.character(s))
      case Err(_) => ucd.character(s)
  }

  /**
   * The code column of the one-line view (`{:X}`) reads back as the same
   * character once it has two or more digits, and always with a `+` in
   * front; a one-digit code (below U+0010) reads back as the digit itself.
   */
  lemma CodeColumnParsesBack(ucd: Ucd, c: char)
    ensures c as int >= 16 ==> ParseScalarValue(ucd, UpperHex(c as int)) == Some(c)
    ensures c as int < 16 ==> ParseScalarValue(ucd, UpperHex(c as int)) == Some(UpperHex(c as int)[0])
    ensures c as int < 16 ==> ParseScalarValue(ucd, UpperHex(c as int)) != Some(c)
    ensures ParseScalarValue(ucd, "+" + UpperHex(c as int)) == Some(c)
  {
    var n := c as int;
    UpperHexRoundTrip(n);
    FromStrRadix16Meaning(UpperHex(n));
    FromStrRadix16Meaning("+" + UpperHex(n));
    if n >= 16 {
      assert |UpperHex(n)| >= 2;
    } else {
      assert '0' <= UpperHex(n)[0];
    }
  }

  /**
   * When the name table inverts the name of `c`, the name parses back to
   * `c`, unless the name is one character or a hex scalar reading, which
   * take precedence.
   */
  lemma NameParsesBack(ucd: Ucd, c: char)
    requires NamesInvertible(ucd)
    requires ucd.name(c).Some?
    ensures var n := ucd.name(c).value;
      |n| != 1 && HexScalar(n).None? ==> ParseScalarValue(ucd, n) == Some(c)
  {
  }

  /** A lone hex digit is the character itself, not a code. */
  lemma SingleCharacterExample(ucd: Ucd)
    ensures ParseScalarValue(ucd, "A") == Some('A')
  {
  }

  /** Hex digits of either case, after an optional `+`, name a code point. */
  lemma HexExamples(ucd: Ucd)
    ensures FromStrRadix16("41") == Ok(0x41) && ParseScalarValue(ucd, "41") == Some('A')
    ensures FromStrRadix16("+4a") == Ok(0x4A) && ParseScalarValue(ucd, "+4a") == Some('J')
  {
  }

  /** A minus sign, a `0x` prefix and the empty string are not hex: the name table decides. */
  lemma NotHexExamples(ucd: Ucd)
    ensures FromStrRadix16("-41") == Err(InvalidDigit)
    ensures ParseScalarValue(ucd, "-41") == ucd.character("-41")
    ensures FromStrRadix16("0x41") == Err(InvalidDigit)
    ensures ParseScalarValue(ucd, "0x41") == ucd.character("0x41")
    ensures FromStrRadix16("") == Err(Empty)
    ensures ParseScalarValue(ucd, "") == ucd.character("")
  {
  }

  /** A surrogate code is not a character: the name table decides. */
  lemma SurrogateExample(ucd: Ucd)
    ensures FromStrRadix16("D800") == Ok(0xD800)
    ensures ParseScalarValue(ucd, "D800") == ucd.character("D800")
  {
    var s := "D800";
    assert FromStrRadix16(s).Ok?;
    FromStrRadix16Meaning(s);
    assert !IsScalarValue(HexReading(s).value);
  }

  /** A code above 0x10FFFF is not a character: the name table decides. */
  lemma AboveMaxExample(ucd: Ucd)
    ensures FromStrRadix16("110000") == Ok(0x110000)
    ensures ParseScalarValue(ucd, "110000") == ucd.character("110000")
  {
    var s := "110000";
    assert FromStrRadix16(s).Ok?;
    FromStrRadix16Meaning(s);
    assert !IsScalarValue(HexReading(s).value);
  }

  /** A code past the `u32` range overflows: the name table decides. */
  lemma OverflowExample(ucd: Ucd)
    ensures FromStrRadix16("100000041") == Err(PosOverflow)
    ensures ParseScalarValue(ucd, "100000041") == ucd.character("100000041")
  {
  }
}

=== FILE: search.dfy ===
/**
 * `search`: every code point of every block, in table order, whose name
 * exists and matches the pattern. The compiled regular expression is an
 * opaque predicate on names (`Regex::is_match`).
 */
module BlockSearch {
  import opened Wrappers
  import opened UnicodeData

  /** A candidate is kept when it has a name and the pattern matches that name. */
  predicate Keep(ucd: Ucd, isMatch: string -> bool, c: char) {
    ucd.name(c).Some? && isMatch(ucd.name(c).value)
  }

  ghost predicate StrictlyIncreasing(s: seq<char>) {
    forall i, j :: 0 <= i < j < |s| ==> s[i] < s[j]
  }

  /**
   * The kept characters among the codes `lo..=hi`, ascending. Surrogate
   * codes are not characters, so a block's character range never yields them.
   */
  function ScanRange(ucd: Ucd, isMatch: string -> bool, lo: int, hi: int): seq<char>
    decreases hi - lo
  {
    if hi < lo then []
    else
      ScanRange(ucd, isMatch, lo, hi - 1)
      + (if IsScalarValue(hi) && Keep(ucd, isMatch, hi as char) then [hi as char] else [])
  }

  /** The kept characters of each block in turn, the blocks in table order. */
  function ScanBlocks(ucd: Ucd, isMatch: string -> bool, blocks: seq<Block>): seq<char>
    decreases |blocks|
  {
    if |blocks| == 0 then []
    else
      var last := blocks[|blocks| - 1];
      ScanBlocks(ucd, isMatch, blocks[..|blocks| - 1])
      + ScanRange(ucd, isMatch, last.low as int, last.high as int)
  }

  /** `search` as the program runs it: one pass over the blocks, one over each block's range. */
  method Search(ucd: Ucd, isMatch: string -> bool) returns (results: seq<char>)
    ensures results == ScanBlocks(ucd, isMatch, ucd.blocks)
    ensures forall c :: c in results <==> InSomeBlock(ucd.blocks, c) && Keep(ucd, isMatch, c)
    ensures BlocksAscending(ucd.blocks) ==> StrictlyIncreasing(results)
  {
    results := [];
    var i := 0;
    while i < |ucd.blocks|
      invariant 0 <= i <= |ucd.blocks|
      invariant results == ScanBlocks(ucd, isMatch, ucd.blocks[..i])
    {
      var block := ucd.blocks[i];
      var lo, hi := block.low as int, block.high as int;
      var before := results;
      var cp := lo;
      while cp <= hi
        invariant lo <= cp && (cp <= hi + 1 || cp == lo)
        invariant results == before + ScanRange(ucd, isMatch, lo, cp - 1)
      {
        if IsScalarValue(cp) {
          var candidate := cp as char;
          match ucd.name(candidate) {
            case Some(name) =>
              if isMatch(name) {
                results := results + [candidate];
              }
            case None =>
              // the program logs the unnamed code point at debug level
          }
        }
        cp := cp + 1;
      }
      assert ucd.blocks[..i + 1][..i] == ucd.blocks[..i];
      i := i + 1;
    }
    assert ucd.blocks[..i] == ucd.blocks;
    ScanBlocksMembership(ucd, isMatch, ucd.blocks);
    if BlocksAscending(ucd.blocks) {
      ScanBlocksIncreasing(ucd, isMatch, ucd.blocks);
    }
  }

  /** A range scan yields exactly the kept characters whose codes lie in the range. */
  lemma {:induction false} ScanRangeMembership(ucd: Ucd, isMatch: string -> bool, lo: int, hi: int)
    ensures forall c :: c in ScanRange(ucd, isMatch, lo, hi) <==>
                        lo <= c as int <= hi && Keep(ucd, isMatch, c)
    decreases hi - lo
  {
    if hi >= lo {
      ScanRangeMembership(ucd, isMatch, lo, hi - 1);
      forall c ensures c in ScanRange(ucd, isMatch, lo, hi) <==>
                       lo <= c as int <= hi && Keep(ucd, isMatch, c)
      {
        if c as int == hi {
          assert IsScalarValue(hi) && hi as char == c;
        }
      }
    }
  }

  /** A range scan is strictly ascending. */
  lemma {:induction false} ScanRangeIncreasing(ucd: Ucd, isMatch: string -> bool, lo: int, hi: int)
    ensures StrictlyIncreasing(ScanRange(ucd, isMatch, lo, hi))
    decreases hi - lo
  {
    if hi >= lo {
      var front := ScanRange(ucd, isMatch, lo, hi - 1);
      ScanRangeIncreasing(ucd, isMatch, lo, hi - 1);
      ScanRangeMembership(ucd, isMatch, lo, hi - 1);
      var s := ScanRange(ucd, isMatch, lo, hi);
      forall i, j | 0 <= i < j < |s| ensures s[i] < s[j] {
        if j >= |front| {
          assert s[i] == front[i] && s[i] in front;
        }
      }
    }
  }

  /**
   * The search yields exactly the kept characters of the block table: each
   * has a name the pattern matches and lies in some block, and every such
   * character is found.
   */
  lemma {:induction false} ScanBlocksMembership(ucd: Ucd, isMatch: string -> bool, blocks: seq<Block>)
    ensures forall c :: c in ScanBlocks(ucd, isMatch, blocks) <==>
                        InSomeBlock(blocks, c) && Keep(ucd, isMatch, c)
    decreases |blocks|
  {
    if |blocks| > 0 {
      var n := |blocks| - 1;
      var front := blocks[..n];
      var last := blocks[n];
      ScanBlocksMembership(ucd, isMatch, front);
      ScanRangeMembership(ucd, isMatch, last.low as int, last.high as int);
      forall c ensures c in ScanBlocks(ucd, isMatch, blocks) <==>
                       InSomeBlock(blocks, c) && Keep(ucd, isMatch, c)
      {
        if InSomeBlock(front, c) {
          var j :| 0 <= j < |front| && InBlock(front[j], c);
          assert InBlock(blocks[j], c);
        }
        if InSomeBlock(blocks, c) && !InBlock(last, c) {
          var j :| 0 <= j < |blocks| && InBlock(blocks[j], c);
          assert j < n && InBlock(front[j], c);
        }
      }
    }
  }

  /** Over an ascending table of blocks the search result is strictly ascending, so free of repeats. */
  lemma {:induction false} ScanBlocksIncreasing(ucd: Ucd, isMatch: string -> bool, blocks: seq<Block>)
    requires BlocksAscending(blocks)
    ensures StrictlyIncreasing(ScanBlocks(ucd, isMatch, blocks))
    decreases |blocks|
  {
    if |blocks| > 0 {
      var n := |blocks| - 1;
      var front := blocks[..n];
      var last := blocks[n];
      var a := ScanBlocks(ucd, isMatch, front);
      var b := ScanRange(ucd, isMatch, last.low as int, last.high as int);
      ScanBlocksIncreasing(ucd, isMatch, front);
      ScanRangeIncreasing(ucd, isMatch, last.low as int, last.high as int);
      ScanBlocksMembership(ucd, isMatch, front);
      ScanRangeMembership(ucd, isMatch, last.low as int, last.high as int);
      var s := a + b;
      forall i, j | 0 <= i < j < |s| ensures s[i] < s[j] {
        if i < |a| && j >= |a| {
          assert s[i] in a && s[j] in b;
          var k :| 0 <= k < |front| && InBlock(front[k], s[i]);
          assert front[k] == blocks[k];
          assert blocks[k].high < last.low;
        } else if j < |a| {
          assert s[i] == a[i] && s[j] == a[j];
        } else {
          assert s[i] == b[i - |a|] && s[j] == b[j - |a|];
        }
      }
    }
  }
}

=== FILE: unicode_data.dfy ===
/**
 * The Unicode Character Database as the program sees it. The tables live in
 * foreign crates (`unicode_names2` for names, `unic_ucd` for everything else),
 * so they are not computed here: a `Ucd` value bundles them as uninterpreted
 * total functions, and every operation of the model is proved for ALL such
 * bundles. The one table the program walks itself, the block list, is a
 * sequence, and `Block::of` is the lookup of a code point in that same list.
 *
 * A Dafny `char` is a Unicode scalar value, exactly like a Rust `char`.
 */
module UnicodeData {
  import opened Wrappers

  /** Definition D76 of section 3.9 of the Unicode Standard. */
  predicate IsScalarValue(n: int) {
    0 <= n <= 0x10FFFF && !(0xD800 <= n <= 0xDFFF)
  }

  /** `char::is_ascii`. */
  predicate IsAscii(c: char) {
    c as int <= 0x7F
  }

  /** The thirty values of the General_Category property. */
  datatype GeneralCategory =
    | UppercaseLetter | LowercaseLetter | TitlecaseLetter | ModifierLetter | OtherLetter
    | NonspacingMark | SpacingMark | EnclosingMark
    | DecimalNumber | LetterNumber | OtherNumber
    | ConnectorPunctuation | DashPunctuation | OpenPunctuation | ClosePunctuation
    | InitialPunctuation | FinalPunctuation | OtherPunctuation
    | MathSymbol | CurrencySymbol | ModifierSymbol | OtherSymbol
    | SpaceSeparator | LineSeparator | ParagraphSeparator
    | Control | Format | Surrogate | PrivateUse | Unassigned

  /** The Age property: the Unicode version that first assigned a code point. */
  datatype Age = Age(major: nat, minor: nat, micro: nat)

  /** A named block: the closed range `low..=high` of scalar values. */
  datatype Block = Block(low: char, high: char, name: string)

  predicate InBlock(b: Block, c: char) {
    b.low <= c <= b.high
  }

  ghost predicate InSomeBlock(blocks: seq<Block>, c: char) {
    exists i :: 0 <= i < |blocks| && InBlock(blocks[i], c)
  }

  /**
   * Blocks listed in ascending order and pairwise disjoint, as the block
   * table of the Unicode Character Database is. The ordering of search
   * results and the uniqueness of the containing block depend on it.
   */
  ghost predicate BlocksAscending(blocks: seq<Block>) {
    forall i, j :: 0 <= i < j < |blocks| ==> blocks[i].high < blocks[j].low
  }

  /** The tables consulted by the program, all opaque to the model. */
  datatype Ucd = Ucd(
    name: char -> Option<string>,          // unicode_names2::name
    character: string -> Option<char>,     // unicode_names2::character
    category: char -> GeneralCategory,     // GeneralCategory::of
    blocks: seq<Block>,                    // the table behind BlockIter and Block::of
    age: char -> Option<Age>,              // Age::of
    isAlphabetic: char -> bool,
    isBidiMirrored: char -> bool,
    isCaseIgnorable: char -> bool,
    isCased: char -> bool,
    isLowercase: char -> bool,
    isUppercase: char -> bool,
    isWhiteSpace: char -> bool)

  /** Every named character's name leads back to it through the name lookup. */
  ghost predicate NamesInvertible(ucd: Ucd) {
    forall c: char :: ucd.name(c).Some? ==> ucd.character(ucd.name(c).value) == Some(c)
  }

  /**
   * `Block::of`: the block of the table that contains `c`, if any. The crate
   * finds it by binary search; over an ascending table that is the only
   * block containing `c` (`BlockOfUnique`).
   */
  function BlockOf(blocks: seq<Block>, c: char): (r: Option<Block>)
    ensures r.Some? ==> r.value in blocks && InBlock(r.value, c)
    ensures r.None? <==> !InSomeBlock(blocks, c)
  {
    if |blocks| == 0 then None
    else if InBlock(blocks[0], c) then Some(blocks[0])
    else
      var r := BlockOf(blocks[1..], c);
      assert InSomeBlock(blocks[1..], c) ==> InSomeBlock(blocks, c) by {
        if InSomeBlock(blocks[1..], c) {
          var i :| 0 <= i < |blocks[1..]| && InBlock(blocks[1..][i], c);
          assert InBlock(blocks[i + 1], c);
        }
      }
      assert InSomeBlock(blocks, c) ==> InSomeBlock(blocks[1..], c) by {
        if InSomeBlock(blocks, c) {
          var i :| 0 <= i < |blocks| && InBlock(blocks[i], c);
          assert i != 0;
          assert InBlock(blocks[1..][i - 1], c);
        }
      }
      r
  }

  /** In an ascending table the block that contains `c` is unique. */
  lemma {:induction false} BlockOfUnique(blocks: seq<Block>, i: int, c: char)
    requires BlocksAscending(blocks)
    requires 0 <= i < |blocks| && InBlock(blocks[i], c)
    ensures BlockOf(blocks, c) == Some(blocks[i])
    ensures forall j :: 0 <= j < |blocks| && InBlock(blocks[j], c) ==> j == i
  {
    if i == 0 {
    } else {
      assert !InBlock(blocks[0], c) by {
        assert blocks[0].high < blocks[i].low;
      }
      assert BlocksAscending(blocks[1..]) by {
        forall p, q | 0 <= p < q < |blocks[1..]|
          ensures blocks[1..][p].high < blocks[1..][q].low
        {
          assert blocks[1..][p] == blocks[p + 1] && blocks[1..][q] == blocks[q + 1];
        }
      }
      BlockOfUnique(blocks[1..], i - 1, c);
    }
  }
}

=== FILE: wrappers.dfy ===
/** The optional value used wherever the program returns Rust's `Option`. */
module Wrappers {

  datatype Option<+T> = None | Some(value: T)
}
